=== FILE: README.md ===
# Monte Carlo Tree Search: tree bookkeeping

A Dafny model of the tree-bookkeeping half of the `MCTS` class in `monteCarlo.py`, a
Monte Carlo Tree Search engine for two-player board games (tic-tac-toe / k-in-a-row).
The model covers the search tree's nodes, the most-visited-child choice used for the final
move, UCT-based selection (with its zero-visit branch), expansion, back-propagation, one
pass of the search loop, a run of passes, and the final decision.

The tree is an immutable arena. It is a sequence of `Node` records that refer to each
other by index. The root is at index 0. Each other node names its parent, which always has
a smaller index. Every operation is a pure function from one arena to the next. The game
is an outside collaborator. A `Game` value carries the two operations the search calls,
`actions(state)` and `result(state, action)`, as arbitrary total functions.

Files, one module each:

- `game.dfy` (`MctsGame`): the `GameState` record, the abstract `Game`, and `IsTerminalState`.
- `tree.dfy` (`MctsTree`): `Node`, the arena, tree validity, the ancestor relation, and
  the visit-order invariant.
- `selection.dfy` (`MctsSelection`): Python's first-maximum `max`, `getChildWithMaxScore`,
  `uctValue`, `findBestNodeWithUCT`, and `selectNode`.
- `expansion.dfy` (`MctsExpansion`): `expandNode`.
- `backprop.dfy` (`MctsBackprop`): `backPropagation`.
- `search.dfy` (`MctsSearch`): the engine record, one loop pass, a run of passes, the
  decision, and lemmas about a fresh engine.

Points of the code that the model keeps as they are:

- `getChildWithMaxScore` calls `max` on the child list, and takes the first child with the
  most visits.
- `uctValue` gives an unvisited child `sys.maxsize`, or 0 when the exploration constant is 0.
- `backPropagation` adds one point to a node exactly when its `to_move` differs from the
  winner. A tie is reported as `'N'`, which never equals a `to_move`, so on a tie every node
  on the walk gains a point.
- The loop simulates and back-propagates from the selected leaf itself, as the comment at
  monteCarlo.py:54-57 says, not from one of its new children.
- The loop expands the selected leaf without checking whether its state is terminal.

## Model

| member | source | states |
|---|---|---|
| MctsSelection.ArgMaxFirst | monteCarlo.py:25 | Python `max` over a non-empty list yields a position whose key no other key exceeds and every earlier key is strictly below |
| MctsSelection.FirstMaxUnique | monteCarlo.py:25 | that first-maximum position is unique, so `max` is deterministic |
| MctsSelection.GetChildWithMaxScore | monteCarlo.py:24-26 | on a non-empty child list, returns a child whose visit count is at least every sibling's, and it is the first such child in list order |
| MctsSelection.FindBestNodeWithUCT | monteCarlo.py:77-78 | returns a child of the node whose UCT value is at least every sibling's, the first such child in list order |
| MctsSelection.UnvisitedChildChosenFirst | monteCarlo.py:77-82 | with a non-zero exploration constant, an unvisited child scores `sys.maxsize`, so the first unvisited child is chosen whenever there is one |
| MctsSelection.ZeroExploreSkipsUnvisited | monteCarlo.py:80-82 | with exploration constant 0, an unvisited child scores 0 and loses to any visited child with a positive score |
| MctsSelection.SelectNode | monteCarlo.py:70-74 | returns a node without children that is the start node or one of its descendants, reached by taking the UCT-best child (`FindBestNodeWithUCT`) at every step: each node on the walk below the start node is the UCT-best child of its parent; the tree is not changed |
| MctsExpansion.AppendChild | monteCarlo.py:91-92 | appending one child keeps the tree valid; the child starts with no children, no visits, a zero score and the node as parent |
| MctsExpansion.ExpandWith | monteCarlo.py:90-92 | the expansion loop appends one child per action, in action order, after the existing children; child k holds the successor for action k; no other node changes |
| MctsExpansion.ExpandNode | monteCarlo.py:86-92 | adds exactly one new child per legal action after any existing ones; child k holds `result(state, actions(state)[k])` and names the node as parent; the node's own state and statistics and every other node are unchanged; the tree stays valid |
| MctsExpansion.ExpandKeepsVisitOrder | monteCarlo.py:86-92 | expansion keeps every parent at least as visited as each of its children |
| MctsExpansion.ExpandWithoutActionsIsIdentity | monteCarlo.py:86-92 | when the game offers no action, expansion leaves the tree unchanged |
| MctsExpansion.ExpandNonTerminalGrows | monteCarlo.py:36-37 | when the game's actions are the state's own moves, expanding a non-terminal state gives the node at least one new child |
| MctsBackprop.BackPropagation | monteCarlo.py:118-126 | adds exactly one visit to each node on the walk from the given node to the root, inclusive, and to no other node; adds one point to such a node iff its `to_move` differs from the winner; states, parents and children are unchanged |
| MctsBackprop.BackPropagationVisitsRoot | monteCarlo.py:122-126 | every pass reaches the root and adds exactly one visit to it |
| MctsBackprop.BackPropagationKeepsShape | monteCarlo.py:122-126 | a pass leaves a valid tree valid |
| MctsBackprop.BackPropagationKeepsVisitOrder | monteCarlo.py:122-126 | a pass keeps every parent at least as visited as each of its children |
| MctsBackprop.TieCreditsWholePath | monteCarlo.py:124-125 | on a tie (`'N'`), when every `to_move` is `'X'` or `'O'`, each node gains exactly as many points as visits |
| MctsSearch.NewMcts | monteCarlo.py:30-34 | a new engine's tree is a single valid root holding the state, with no children, no visits and a zero score; the engine keeps the given game and UCT parameters |
| MctsSearch.Iterate | monteCarlo.py:49-52 | one pass keeps the tree valid and the visit order, adds one root visit, never lowers a visit count, keeps states and parents, and changes only a child list that was empty |
| MctsSearch.PassExpandsLeafIffActions | monteCarlo.py:49-50 | a pass gives the selected leaf children iff the game offers an action at its state, whether or not that state is terminal |
| MctsSearch.PassExpandsNonTerminalLeaf | monteCarlo.py:36-37 | when the game's actions are a state's own moves, a pass that selects a leaf whose state is not terminal (utility 0 and a move left) leaves it with children |
| MctsSearch.IterateChangesOnlyPath | monteCarlo.py:49-52 | in one pass the selected leaf gets exactly one child per legal action, the nodes on the walk from the leaf to the root gain one visit (and one point unless the outcome names their player to move), and every other old node is unchanged |
| MctsSearch.Run | monteCarlo.py:48-52 | N passes add exactly N root visits and keep the invariant; visit counts only grow; a non-empty child list never changes, so a node gains children at most once (a leaf without actions is expanded again, to no effect, whenever it is selected) |
| MctsSearch.DecisionUnique | monteCarlo.py:25 | a tree has only one decision: the first most-visited root child is unique |
| MctsSearch.Decide | monteCarlo.py:59-61 | the decision exists iff the root has children, and is then the move of the root child at the first position with the most visits (every earlier child has strictly fewer) |
| MctsSearch.MonteCarloPlayer | monteCarlo.py:38-61 | the result is the decision on the tree after one pass per outcome: `None` iff that tree's root has no children, else the move of its first most-visited root child; an engine whose root already has children always decides on a move |
| MctsSearch.FreshSearchCountsIterations | monteCarlo.py:48-52 | after N passes from a fresh engine the root's visit count is exactly N |
| MctsSearch.ChildlessRootStaysChildless | monteCarlo.py:49-50 | a childless root whose state has no legal action stays childless through any number of passes |
| MctsSearch.FreshSearchDecides | monteCarlo.py:38-61 | a fresh engine returns a move iff it ran at least one pass and the state has a legal action, and the move is that of one of the state's successors |

## Left out

- `simulateRandomPlay` (monteCarlo.py:95-115) is not modelled. It depends on `random.choice`, on `copy.deepcopy` and on the game's `compute_utility` and `k`. Each pass takes its result as an input character instead. Its side effect of writing `-sys.maxsize` into the parent's `winScore` is not modelled either.
- The wall-clock loop driver of `monteCarloPlayer` (monteCarlo.py:40-48) is not modelled. It reads `time.perf_counter`. The model runs one pass per element of a given outcome sequence instead.
- The floating-point branch of `uctValue` (monteCarlo.py:83) is not modelled. It uses `sqrt`, `log` and division. It is replaced by an arbitrary scoring function of the parent's visit count and the child's score and visit count. The `ValueError` that `math.log(0)` would raise is not modelled. `ParentVisitsDominate` shows that a visited child always has a visited parent, so the search loop never reaches it.
- `sys.maxsize` is fixed at its 64-bit value 2^63 - 1 (`MaxSize`), the value on a 64-bit platform.
- The exploration constant `math.sqrt(2)` (monteCarlo.py:34) is a parameter. Only whether it is zero matters for the modelled branch.
- `copy.deepcopy` in the `Node` constructor (monteCarlo.py:17) and the copy of the state in `expandNode` (monteCarlo.py:88-89) are not modelled. States are values, so the copies change nothing.
- The rules behind `game.actions` and `game.result` live in a module that is not part of this model. They are arbitrary functions here.
- The `MCTS.state` field (monteCarlo.py:32) is never read by the core and is not modelled.
- The `assert` on the decision (monteCarlo.py:60) always holds once `max` returns, and is not modelled.
- UctValue: only the zero-visit branch (monteCarlo.py:81-82) is modelled as written; its meaning is stated by `UnvisitedChildChosenFirst` and `ZeroExploreSkipsUnvisited`. The visited branch is the abstract `visitedScore`, not the source's `winScore / visitCount + c * sqrt(log(parentVisitCount) / visitCount)`, so nothing is promised about its value.
- UnvisitedChildChosenFirst: assumes that every visited child's abstract score is below `sys.maxsize`. The source's float formula is not modelled, so the lemma cannot derive this.
- MonteCarloPlayer: the outcomes are arbitrary characters, not tied to the selected leaf as the simulation's result would be. Every property shown holds for every outcome.
- MonteCarloPlayer: returns only the move. The grown tree that the source keeps in `self.root`, and that a later call searches on from, is not returned. `Run` gives that tree.
- Decide: the `ValueError` that `max` raises at monteCarlo.py:25 and :59 on a root without children is returned as `None`. `GetChildWithMaxScore` takes a non-empty child list as a precondition.

=== FILE: backprop.dfy ===
/**
 The back-propagation stage: the outcome of one simulation is recorded on every node of the
 walk from the simulated node up to the root.
 */
module MctsBackprop {
  import opened MctsGame
  import opened MctsTree

  /** The statistics update of one node on the walk: one more visit, and one more point
      unless the winner is the player to move at that node. */
  function Credit<A, B>(n: Node<A, B>, winningPlayer: char): (n': Node<A, B>)
  {
    n.(visitCount := n.visitCount + 1,
       winScore := if n.state.toMove != winningPlayer then n.winScore + 1 else n.winScore)
  }

  /** Walks parent links from node `i` to the root, crediting each node on the way. */
  function BackPropagation<A, B>(t: Tree<A, B>, i: nat, winningPlayer: char): (r: Tree<A, B>)
    requires ValidTree(t) && i < |t|
    ensures |r| == |t|
    ensures forall j :: 0 <= j < |t| ==>
      r[j].state == t[j].state && r[j].parent == t[j].parent && r[j].children == t[j].children
    ensures forall j :: 0 <= j < |t| ==>
      r[j].visitCount == t[j].visitCount + (if IsAncestorOrSelf(t, j, i) then 1 else 0)
    ensures forall j :: 0 <= j < |t| ==>
      r[j].winScore == t[j].winScore
        + (if IsAncestorOrSelf(t, j, i) && t[j].state.toMove != winningPlayer then 1 else 0)
    decreases i
  {
    var t' := t[i := Credit(t[i], winningPlayer)];
    match t[i].parent
    case None => t'
    case Some(p) =>
      CreditStep(t, t', i, p);
      BackPropagation(t', p, winningPlayer)
  }

  /** After crediting node `i`, the tree keeps its shape, and the walk up from the parent
      `p` of `i` meets exactly the nodes of the walk up from `i` other than `i` itself. */
  lemma CreditStep<A, B>(t: Tree<A, B>, t': Tree<A, B>, i: nat, p: nat)
    requires ValidTree(t) && i < |t| && t[i].parent == Some(p)
    requires SameShape(t, t')
    ensures ValidTree(t') && p < |t'|
    ensures forall j :: 0 <= j < |t| ==>
      (IsAncestorOrSelf(t', j, p) <==> IsAncestorOrSelf(t, j, i) && j != i)
  {
    SameShapeValid(t, t');
    forall j | 0 <= j < |t|
      ensures IsAncestorOrSelf(t', j, p) <==> IsAncestorOrSelf(t, j, i) && j != i
    {
      AncestorSameParents(t, t', j, p);
      AncestorIsBelow(t, j, p);
    }
  }

  /** Every back-propagation pass reaches the root. */
  lemma {:induction false} BackPropagationVisitsRoot<A, B>(t: Tree<A, B>, i: nat, winningPlayer: char)
    requires ValidTree(t) && i < |t|
    ensures BackPropagation(t, i, winningPlayer)[0].visitCount == t[0].visitCount + 1
  {
    RootIsAncestorOfAll(t, i);
  }

  /** The result of a pass is again a valid tree. */
  lemma BackPropagationKeepsShape<A, B>(t: Tree<A, B>, i: nat, winningPlayer: char)
    requires ValidTree(t) && i < |t|
    ensures ValidTree(BackPropagation(t, i, winningPlayer))
  {
    SameShapeValid(t, BackPropagation(t, i, winningPlayer));
  }

  /** A pass keeps every parent at least as visited as each of its children. */
  lemma {:induction false} BackPropagationKeepsVisitOrder<A, B>(t: Tree<A, B>, i: nat, winningPlayer: char)
    requires ValidTree(t) && i < |t| && ParentVisitsDominate(t)
    ensures ParentVisitsDominate(BackPropagation(t, i, winningPlayer))
  {
    var r := BackPropagation(t, i, winningPlayer);
    forall j | 0 <= j < |r|
      ensures VisitsBelowParent(r, j)
    {
      assert VisitsBelowParent(t, j);
      if 0 < j && IsAncestorOrSelf(t, j, i) {
        AncestorClimbs(t, j, i);
      }
    }
  }

  /** On a tie every node whose player to move is `'X'` or `'O'` differs from the tie marker
      `'N'`, so each node on the walk gains exactly as many points as visits. */
  lemma TieCreditsWholePath<A, B>(t: Tree<A, B>, i: nat)
    requires ValidTree(t) && i < |t|
    requires forall j :: 0 <= j < |t| ==> t[j].state.toMove == 'X' || t[j].state.toMove == 'O'
    ensures var r := BackPropagation(t, i, 'N');
      forall j :: 0 <= j < |t| ==>
        r[j].winScore - t[j].winScore == r[j].visitCount - t[j].visitCount
  {
  }
}

=== FILE: expansion.dfy ===
/**
 The expansion stage: a node gets one new child per legal action of its state, appended to
 the arena and to the node's child list in the order the game lists the actions.
 */
module MctsExpansion {
  import opened MctsGame
  import opened MctsTree

  /** Appends one fresh child holding state `s` below node `i`. */
  function AppendChild<A, B>(t: Tree<A, B>, i: nat, s: GameState<A, B>): (r: Tree<A, B>)
    requires ValidTree(t) && i < |t|
    ensures ValidTree(r)
    ensures |r| == |t| + 1 && r[|t|] == NewNode(s, Some(i))
    ensures r[i] == t[i].(children := t[i].children + [|t|])
    ensures forall j :: 0 <= j < |t| && j != i ==> r[j] == t[j]
  {
    var r := t[i := t[i].(children := t[i].children + [|t|])] + [NewNode(s, Some(i))];
    AppendChildValid(t, i, r);
    r
  }

  /** The link conditions of `ValidTree`, one by one, for a tree grown by one child of `i`. */
  lemma AppendChildValid<A, B>(t: Tree<A, B>, i: nat, r: Tree<A, B>)
    requires ValidTree(t) && i < |t|
    requires |r| == |t| + 1 && r[|t|].parent == Some(i) && r[|t|].children == []
    requires r[i].parent == t[i].parent && r[i].children == t[i].children + [|t|]
    requires forall j :: 0 <= j < |t| && j != i ==> r[j].parent == t[j].parent && r[j].children == t[j].children
    ensures ValidTree(r)
  {
    var n := |t|;
    assert forall j :: 0 <= j < n ==> r[j].parent == t[j].parent;
    forall j, k | 0 <= j < |r| && 0 <= k < |r[j].children|
      ensures j < r[j].children[k] < |r| && r[r[j].children[k]].parent == Some(j)
    {
      if j == i && k == |t[i].children| {
        assert r[j].children[k] == n;
      } else {
        assert r[j].children[k] == t[j].children[k];
      }
    }
    forall j, k, l | 0 <= j < |r| && 0 <= k < l < |r[j].children|
      ensures r[j].children[k] != r[j].children[l]
    {
      if j == i && l == |t[i].children| {
        assert r[j].children[k] == t[j].children[k] < n;
      } else {
        assert r[j].children[k] == t[j].children[k];
        assert r[j].children[l] == t[j].children[l];
      }
    }
    forall j | 0 < j < |r|
      ensures ListedByParent(r, j)
    {
      if j < n {
        assert ListedByParent(t, j);
        var p := t[j].parent.value;
        assert j in t[p].children;
        assert t[p].children <= r[p].children;
      }
    }
  }

  /** The loop of the expansion stage: one child per action of `acts`, in order, each
      holding the state action leads to from `s`. */
  function ExpandWith<A, B>(t: Tree<A, B>, i: nat, game: Game<A, B>, s: GameState<A, B>, acts: seq<A>): (r: Tree<A, B>)
    requires ValidTree(t) && i < |t|
    ensures ValidTree(r)
    ensures |r| == |t| + |acts|
    ensures r[i] == t[i].(children := t[i].children + Indices(|t|, |acts|))
    ensures forall j :: 0 <= j < |t| && j != i ==> r[j] == t[j]
    ensures forall k :: 0 <= k < |acts| ==> r[|t| + k] == NewNode(game.result(s, acts[k]), Some(i))
    decreases |acts|
  {
    if acts == [] then t
    else
      var t' := AppendChild(t, i, game.result(s, acts[0]));
      var r := ExpandWith(t', i, game, s, acts[1..]);
      ExpandStep(t, t', r, i, |acts|);
      assert forall j :: 0 <= j < |t'| && j != i ==> r[j] == t'[j];
      assert forall k :: 0 <= k < |acts[1..]| ==> r[|t'| + k] == NewNode(game.result(s, acts[1..][k]), Some(i));
      ExpandStepNewNodes(t, t', r, i, game, s, acts);
      r
  }

  /** The child list after appending one child and then `n - 1` more. */
  lemma ExpandStep<A, B>(t: Tree<A, B>, t': Tree<A, B>, r: Tree<A, B>, i: nat, n: nat)
    requires i < |t| && 0 < n && |t'| == |t| + 1
    requires t'[i] == t[i].(children := t[i].children + [|t|])
    requires i < |r| && r[i] == t'[i].(children := t'[i].children + Indices(|t'|, n - 1))
    ensures r[i] == t[i].(children := t[i].children + Indices(|t|, n))
  {
  }

  /** The new nodes after appending the child for the first action and then the rest. */
  lemma ExpandStepNewNodes<A, B>(t: Tree<A, B>, t': Tree<A, B>, r: Tree<A, B>, i: nat,
                                 game: Game<A, B>, s: GameState<A, B>, acts: seq<A>)
    requires i < |t| && |acts| > 0 && |t'| == |t| + 1
    requires t'[|t|] == NewNode(game.result(s, acts[0]), Some(i))
    requires |r| == |t'| + |acts| - 1
    requires forall j :: 0 <= j < |t'| && j != i ==> r[j] == t'[j]
    requires forall k :: 0 <= k < |acts[1..]| ==> r[|t'| + k] == NewNode(game.result(s, acts[1..][k]), Some(i))
    ensures forall k :: 0 <= k < |acts| ==> r[|t| + k] == NewNode(game.result(s, acts[k]), Some(i))
  {
    forall k | 0 <= k < |acts|
      ensures r[|t| + k] == NewNode(game.result(s, acts[k]), Some(i))
    {
      if k == 0 {
        assert r[|t|] == t'[|t|];
      } else {
        assert r[|t'| + (k - 1)] == NewNode(game.result(s, acts[1..][k - 1]), Some(i));
      }
    }
  }

  /** The expansion stage on node `i`: its state's legal actions become new children,
      appended after any existing ones; no other node changes. */
  function ExpandNode<A, B>(t: Tree<A, B>, i: nat, game: Game<A, B>): (r: Tree<A, B>)
    requires ValidTree(t) && i < |t|
    ensures ValidTree(r)
    ensures var acts := game.actions(t[i].state);
      && |r| == |t| + |acts|
      && r[i].children == t[i].children + Indices(|t|, |acts|)
      && r[i].state == t[i].state && r[i].parent == t[i].parent
      && r[i].visitCount == t[i].visitCount && r[i].winScore == t[i].winScore
      && (forall j :: 0 <= j < |t| && j != i ==> r[j] == t[j])
      && (forall k :: 0 <= k < |acts| ==>
            r[|t| + k] == NewNode(game.result(t[i].state, acts[k]), Some(i)))
  {
    ExpandWith(t, i, game, t[i].state, game.actions(t[i].state))
  }

  /** Expansion leaves every parent at least as visited as each child: new children start
      with no visits. */
  lemma ExpandKeepsVisitOrder<A, B>(t: Tree<A, B>, i: nat, game: Game<A, B>)
    requires ValidTree(t) && i < |t| && ParentVisitsDominate(t)
    ensures ParentVisitsDominate(ExpandNode(t, i, game))
  {
    var r := ExpandNode(t, i, game);
    forall j | 0 <= j < |r|
      ensures VisitsBelowParent(r, j)
    {
      if |t| <= j {
        var acts := game.actions(t[i].state);
        var k := j - |t|;
        assert r[|t| + k] == NewNode(game.result(t[i].state, acts[k]), Some(i));
      } else if t[j].parent.Some? {
        assert VisitsBelowParent(t, j);
        assert r[j].visitCount == t[j].visitCount && r[j].parent == t[j].parent;
        assert r[t[j].parent.value].visitCount == t[t[j].parent.value].visitCount;
      }
    }
  }

  /** When the game offers no action, expansion leaves the tree as it was. */
  lemma ExpandWithoutActionsIsIdentity<A, B>(t: Tree<A, B>, i: nat, game: Game<A, B>)
    requires ValidTree(t) && i < |t| && game.actions(t[i].state) == []
    ensures ExpandNode(t, i, game) == t
  {
  }

  /** When the game's actions are the state's own move list, expanding a state that is not
      terminal gives the node at least one new child, and so it is no longer a leaf. */
  lemma ExpandNonTerminalGrows<A, B>(t: Tree<A, B>, i: nat, game: Game<A, B>)
    requires ValidTree(t) && i < |t|
    requires game.actions(t[i].state) == t[i].state.moves
    requires !IsTerminalState(t[i].state.utility, t[i].state.moves)
    ensures |ExpandNode(t, i, game)[i].children| > |t[i].children|
  {
  }
}

=== FILE: game.dfy ===
/**
 The game the search plays is an outside collaborator. This module fixes the shape of a
 position (the `GameState` record of monteCarlo.py) and the two game operations the tree
 bookkeeping consumes, `actions` and `result`, which are left abstract: a `Game` value
 carries them as total functions, so every property below holds for every game.
 */
module MctsGame {

  /** A position: whose turn it is (`'X'` or `'O'` in the source), the move that produced
      it, its utility (0 while undecided), the board, and the legal moves from it. */
  datatype GameState<A, B> = GameState(toMove: char, move: A, utility: int, board: B, moves: seq<A>)

  /** The game rules as seen by the search: the legal actions of a state, in the order the
      game enumerates them, and the state an action leads to. */
  datatype Game<!A, !B> = Game(
    actions: GameState<A, B> -> seq<A>,
    result: (GameState<A, B>, A) -> GameState<A, B>)

  /** A state is finished once its utility is decided or no move is left. */
  function IsTerminalState<A>(utility: int, moves: seq<A>): (terminal: bool)
  {
    utility != 0 || |moves| == 0
  }
}

=== FILE: search.dfy ===
/**
 The search engine: one iteration of select, expand and back-propagate, a run of many
 iterations, and the final decision. The simulation stage is not modelled; each iteration
 takes the winner it would have reported as an input.
 */
module MctsSearch {
  import opened MctsGame
  import opened MctsTree
  import opened MctsSelection
  import opened MctsExpansion
  import opened MctsBackprop

  /** The engine: its tree (rooted at index 0), the game it searches, and its UCT
      parameters, which stay fixed for the engine's lifetime. */
  datatype Mcts<!A, !B> = Mcts(tree: Tree<A, B>, game: Game<A, B>, uct: UctParams)

  /** What every iteration preserves: a well-linked tree in which a parent has at least as
      many visits as each child, so that a visited child always has a visited parent. */
  predicate SearchInvariant<A, B>(t: Tree<A, B>)
  {
    ValidTree(t) && ParentVisitsDominate(t)
  }

  /** A new engine: a single unvisited root holding the current state. */
  function NewMcts<A, B>(game: Game<A, B>, state: GameState<A, B>, uct: UctParams): (m: Mcts<A, B>)
    ensures SearchInvariant(m.tree) && |m.tree| == 1
    ensures m.tree[0].state == state && m.tree[0].children == []
    ensures m.tree[0].visitCount == 0 && m.tree[0].winScore == 0
    ensures m.game == game && m.uct == uct
  {
    Mcts([NewNode(state, None)], game, uct)
  }

  /** One pass of the search loop: select a leaf, expand it, and back-propagate the
      given outcome from the leaf itself. Statistics only grow, the root gains one visit,
      and only a leaf, which has no children, gets new ones. */
  function Iterate<A, B>(t: Tree<A, B>, game: Game<A, B>, uct: UctParams, outcome: char): (r: Tree<A, B>)
    requires SearchInvariant(t)
    ensures SearchInvariant(r)
    ensures |r| >= |t|
    ensures r[0].visitCount == t[0].visitCount + 1
    ensures forall j :: 0 <= j < |t| ==>
      r[j].state == t[j].state && r[j].parent == t[j].parent && r[j].visitCount >= t[j].visitCount
    ensures forall j :: 0 <= j < |t| && t[j].children != [] ==> r[j].children == t[j].children
  {
    var leaf := SelectNode(t, 0, uct);
    var t1 := ExpandNode(t, leaf, game);
    var r := BackPropagation(t1, leaf, outcome);
    IterateKeepsInvariant(t, t1, r, leaf, game, outcome);
    IterateKeepsOldNodes(t, t1, r, leaf, game, outcome);
    r
  }

  /** The stages of one pass keep the search invariant and add one root visit. */
  lemma IterateKeepsInvariant<A, B>(t: Tree<A, B>, t1: Tree<A, B>, r: Tree<A, B>, leaf: nat, game: Game<A, B>, outcome: char)
    requires SearchInvariant(t) && leaf < |t|
    requires t1 == ExpandNode(t, leaf, game) && r == BackPropagation(t1, leaf, outcome)
    ensures SearchInvariant(r) && r[0].visitCount == t[0].visitCount + 1
  {
    ExpandKeepsVisitOrder(t, leaf, game);
    BackPropagationKeepsShape(t1, leaf, outcome);
    BackPropagationKeepsVisitOrder(t1, leaf, outcome);
    BackPropagationVisitsRoot(t1, leaf, outcome);
  }

  /** The stages of one pass keep the states and links of the old nodes, never lower a
      visit count, and give new children only to a node that had none. */
  lemma IterateKeepsOldNodes<A, B>(t: Tree<A, B>, t1: Tree<A, B>, r: Tree<A, B>, leaf: nat, game: Game<A, B>, outcome: char)
    requires ValidTree(t) && leaf < |t| && t[leaf].children == []
    requires t1 == ExpandNode(t, leaf, game) && r == BackPropagation(t1, leaf, outcome)
    ensures |r| >= |t|
    ensures forall j :: 0 <= j < |t| ==>
      r[j].state == t[j].state && r[j].parent == t[j].parent && r[j].visitCount >= t[j].visitCount
    ensures forall j :: 0 <= j < |t| && t[j].children != [] ==> r[j].children == t[j].children
  {
  }

  /** The walk up from an old node is the same in a tree grown by appending nodes, and
      meets none of the appended ones. */
  lemma PathUnchangedByGrowth<A, B>(t: Tree<A, B>, t1: Tree<A, B>, leaf: nat)
    requires leaf < |t| <= |t1|
    requires forall j :: 0 <= j < |t| ==> t1[j].parent == t[j].parent
    ensures forall j :: 0 <= j < |t1| ==>
      (IsAncestorOrSelf(t1, j, leaf) <==> j < |t| && IsAncestorOrSelf(t, j, leaf))
  {
    forall j | 0 <= j < |t1|
      ensures IsAncestorOrSelf(t1, j, leaf) <==> j < |t| && IsAncestorOrSelf(t, j, leaf)
    {
      AncestorIsBelow(t1, j, leaf);
      AncestorSameParents(t, t1, j, leaf);
    }
  }

  /** What one pass changes: the selected leaf gets one child per legal action, holding
      the successor states in action order; the nodes on the walk from the leaf to the
      root gain one visit each, and one point each unless the outcome names their player
      to move; every other node stays as it was. */
  lemma IterateChangesOnlyPath<A, B>(t: Tree<A, B>, game: Game<A, B>, uct: UctParams, outcome: char)
    requires SearchInvariant(t)
    ensures var r := Iterate(t, game, uct, outcome);
      var leaf := SelectNode(t, 0, uct);
      var acts := game.actions(t[leaf].state);
      && |r| == |t| + |acts|
      && t[leaf].children == []
      && r[leaf].children == Indices(|t|, |acts|)
      && (forall j :: 0 <= j < |t| && !IsAncestorOrSelf(t, j, leaf) ==> r[j] == t[j])
      && (forall j :: 0 <= j < |t| && j != leaf ==> r[j].children == t[j].children)
      && (forall j :: 0 <= j < |t| ==>
            r[j].visitCount == t[j].visitCount + (if IsAncestorOrSelf(t, j, leaf) then 1 else 0))
      && (forall j :: 0 <= j < |t| ==>
            r[j].winScore == t[j].winScore
              + (if IsAncestorOrSelf(t, j, leaf) && t[j].state.toMove != outcome then 1 else 0))
      && (forall k :: 0 <= k < |acts| ==>
            r[|t| + k] == NewNode(game.result(t[leaf].state, acts[k]), Some(leaf)))
  {
    var leaf := SelectNode(t, 0, uct);
    var t1 := ExpandNode(t, leaf, game);
    var r := BackPropagation(t1, leaf, outcome);
    assert r == Iterate(t, game, uct, outcome);
    PassStatistics(t, t1, r, leaf, game, outcome);
    PassOffPath(t, t1, r, leaf, game, outcome);
    PassNewChildren(t, t1, r, leaf, game, outcome);
  }

  /** A pass gives the selected leaf children exactly when the game offers an action at
      the leaf's state; whether that state is terminal is not consulted. */
  lemma PassExpandsLeafIffActions<A, B>(t: Tree<A, B>, game: Game<A, B>, uct: UctParams, outcome: char)
    requires SearchInvariant(t)
    ensures var leaf := SelectNode(t, 0, uct);
      Iterate(t, game, uct, outcome)[leaf].children != [] <==> game.actions(t[leaf].state) != []
  {
    var leaf := SelectNode(t, 0, uct);
    var t1 := ExpandNode(t, leaf, game);
    var r := BackPropagation(t1, leaf, outcome);
    assert r == Iterate(t, game, uct, outcome);
    PassOffPath(t, t1, r, leaf, game, outcome);
  }

  /** When the game's actions are a state's own move list, a pass that selects a leaf
      whose state is not terminal leaves that leaf with children. */
  lemma PassExpandsNonTerminalLeaf<A, B>(t: Tree<A, B>, game: Game<A, B>, uct: UctParams, outcome: char)
    requires SearchInvariant(t)
    ensures var leaf := SelectNode(t, 0, uct);
      var s := t[leaf].state;
      game.actions(s) == s.moves && !IsTerminalState(s.utility, s.moves) ==>
        Iterate(t, game, uct, outcome)[leaf].children != []
  {
    PassExpandsLeafIffActions(t, game, uct, outcome);
  }

  /** Statistics after a pass: one visit, and a point unless the outcome names the
      player to move, for exactly the nodes on the walk up from the leaf. */
  lemma PassStatistics<A, B>(t: Tree<A, B>, t1: Tree<A, B>, r: Tree<A, B>, leaf: nat, game: Game<A, B>, outcome: char)
    requires ValidTree(t) && leaf < |t|
    requires t1 == ExpandNode(t, leaf, game) && r == BackPropagation(t1, leaf, outcome)
    ensures forall j :: 0 <= j < |t| ==>
      r[j].visitCount == t[j].visitCount + (if IsAncestorOrSelf(t, j, leaf) then 1 else 0)
    ensures forall j :: 0 <= j < |t| ==>
      r[j].winScore == t[j].winScore
        + (if IsAncestorOrSelf(t, j, leaf) && t[j].state.toMove != outcome then 1 else 0)
  {
    PathUnchangedByGrowth(t, t1, leaf);
    forall j | 0 <= j < |t|
      ensures t1[j].visitCount == t[j].visitCount && t1[j].winScore == t[j].winScore
      ensures t1[j].state == t[j].state
    {
      if j != leaf {
        assert t1[j] == t[j];
      }
    }
  }

  /** Old nodes off the walk up from the leaf are untouched by a pass, and only the leaf's
      child list changes. */
  lemma PassOffPath<A, B>(t: Tree<A, B>, t1: Tree<A, B>, r: Tree<A, B>, leaf: nat, game: Game<A, B>, outcome: char)
    requires ValidTree(t) && leaf < |t|
    requires t1 == ExpandNode(t, leaf, game) && r == BackPropagation(t1, leaf, outcome)
    ensures r[leaf].children == t[leaf].children + Indices(|t|, |game.actions(t[leaf].state)|)
    ensures forall j :: 0 <= j < |t| && j != leaf ==> r[j].children == t[j].children
    ensures forall j :: 0 <= j < |t| && !IsAncestorOrSelf(t, j, leaf) ==> r[j] == t[j]
  {
    PathUnchangedByGrowth(t, t1, leaf);
    forall j | 0 <= j < |t| && !IsAncestorOrSelf(t, j, leaf)
      ensures r[j] == t[j]
    {
      assert j != leaf;
      assert t1[j] == t[j];
    }
  }

  /** The nodes a pass appends are fresh children of the leaf, one per legal action. */
  lemma PassNewChildren<A, B>(t: Tree<A, B>, t1: Tree<A, B>, r: Tree<A, B>, leaf: nat, game: Game<A, B>, outcome: char)
    requires ValidTree(t) && leaf < |t|
    requires t1 == ExpandNode(t, leaf, game) && r == BackPropagation(t1, leaf, outcome)
    ensures var acts := game.actions(t[leaf].state);
      && |r| == |t| + |acts|
      && forall k :: 0 <= k < |acts| ==>
           r[|t| + k] == NewNode(game.result(t[leaf].state, acts[k]), Some(leaf))
  {
    var acts := game.actions(t[leaf].state);
    PathUnchangedByGrowth(t, t1, leaf);
    forall k | 0 <= k < |acts|
      ensures r[|t| + k] == NewNode(game.result(t[leaf].state, acts[k]), Some(leaf))
    {
      var n := |t| + k;
      assert t1[n] == NewNode(game.result(t[leaf].state, acts[k]), Some(leaf));
    }
  }

  /** The search loop, one iteration per simulated outcome, in order. Statistics only
      grow, the root gains one visit per iteration, and a node gains children at most
      once: a non-empty child list never changes again. A leaf whose state has no action
      is expanded again, to no effect, every time it is selected. */
  function Run<A, B>(t: Tree<A, B>, game: Game<A, B>, uct: UctParams, outcomes: seq<char>): (r: Tree<A, B>)
    requires SearchInvariant(t)
    ensures SearchInvariant(r)
    ensures |r| >= |t|
    ensures r[0].visitCount == t[0].visitCount + |outcomes|
    ensures forall j :: 0 <= j < |t| ==>
      r[j].state == t[j].state && r[j].parent == t[j].parent && r[j].visitCount >= t[j].visitCount
    ensures forall j :: 0 <= j < |t| && t[j].children != [] ==> r[j].children == t[j].children
    decreases |outcomes|
  {
    if outcomes == [] then t
    else Run(Iterate(t, game, uct, outcomes[0]), game, uct, outcomes[1..])
  }

  /** `r` is the decision on tree `t`: nothing when the root has no children, and
      otherwise the move of the root child at the first position with the most visits,
      the child Python's `max` returns. */
  ghost predicate IsDecision<A, B>(t: Tree<A, B>, r: Option<A>)
    requires ValidTree(t)
  {
    && (r.None? <==> t[0].children == [])
    && (r.Some? ==> exists k: nat :: IsFirstMax(VisitKeys(t, 0), k) && r.value == t[t[0].children[k]].state.move)
  }

  /** The decision on a tree is determined by the tree. */
  lemma DecisionUnique<A, B>(t: Tree<A, B>, r: Option<A>, r': Option<A>)
    requires ValidTree(t) && IsDecision(t, r) && IsDecision(t, r')
    ensures r == r'
  {
    if r.Some? {
      var keys := VisitKeys(t, 0);
      var k: nat :| IsFirstMax(keys, k) && r.value == t[t[0].children[k]].state.move;
      var k': nat :| IsFirstMax(keys, k') && r'.value == t[t[0].children[k']].state.move;
      FirstMaxUnique(keys, k, k');
    }
  }

  /** The decision: the move of the root's most visited child, the first one in list
      order on a tie, or `None` when the root has no children (where `max` raises). */
  function Decide<A, B>(t: Tree<A, B>): (r: Option<A>)
    requires ValidTree(t)
    ensures IsDecision(t, r)
  {
    if t[0].children == [] then None
    else
      var c := GetChildWithMaxScore(t, 0);
      assert c == t[0].children[ArgMaxFirst(VisitKeys(t, 0))];
      Some(t[c].state.move)
  }

  /** The entry point: run one iteration per outcome on the engine's tree, then decide. */
  function MonteCarloPlayer<A, B>(m: Mcts<A, B>, outcomes: seq<char>): (r: Option<A>)
    requires SearchInvariant(m.tree)
    ensures m.tree[0].children != [] ==> r.Some?
    ensures IsDecision(Run(m.tree, m.game, m.uct, outcomes), r)
  {
    Decide(Run(m.tree, m.game, m.uct, outcomes))
  }

  /** A fresh search's root has been visited exactly once per iteration. */
  lemma FreshSearchCountsIterations<A, B>(game: Game<A, B>, state: GameState<A, B>, uct: UctParams, outcomes: seq<char>)
    ensures Run(NewMcts(game, state, uct).tree, game, uct, outcomes)[0].visitCount == |outcomes|
  {
  }

  /** A root without children whose state has no legal action stays without children. */
  lemma {:induction false} ChildlessRootStaysChildless<A, B>(t: Tree<A, B>, game: Game<A, B>, uct: UctParams, outcomes: seq<char>)
    requires SearchInvariant(t) && t[0].children == [] && game.actions(t[0].state) == []
    ensures Run(t, game, uct, outcomes)[0].children == []
    decreases |outcomes|
  {
    if outcomes != [] {
      var t1 := Iterate(t, game, uct, outcomes[0]);
      assert SelectNode(t, 0, uct) == 0;
      ChildlessRootStaysChildless(t1, game, uct, outcomes[1..]);
    }
  }

  /** The first pass of a fresh search expands the root: its children hold the successors
      of the current state, one per legal action, in action order. */
  lemma FreshFirstIteration<A, B>(game: Game<A, B>, state: GameState<A, B>, uct: UctParams, outcome: char)
    ensures var t1 := Iterate(NewMcts(game, state, uct).tree, game, uct, outcome);
      var acts := game.actions(state);
      && |t1| == 1 + |acts|
      && t1[0].children == Indices(1, |acts|)
      && forall k :: 0 <= k < |acts| ==> t1[1 + k].state == game.result(state, acts[k])
  {
  }

  /** When the root's children hold the successors of `state`, one per action, the
      decision is the move of one of those successors. */
  lemma DecisionAmongSuccessors<A, B>(r: Tree<A, B>, game: Game<A, B>, state: GameState<A, B>, acts: seq<A>)
    requires ValidTree(r) && |acts| > 0 && |r| > |acts| && r[0].children == Indices(1, |acts|)
    requires forall k :: 0 <= k < |acts| ==> r[1 + k].state == game.result(state, acts[k])
    ensures Decide(r).Some?
    ensures exists k :: 0 <= k < |acts| && Decide(r).value == game.result(state, acts[k]).move
  {
    var c := GetChildWithMaxScore(r, 0);
    assert Decide(r) == Some(r[c].state.move);
    var k :| 0 <= k < |r[0].children| && r[0].children[k] == c;
    assert c == 1 + k;
    assert r[c].state == game.result(state, acts[k]);
  }

  /** A fresh engine with at least one iteration and a state with legal actions decides
      on the move of one of the state's successors. */
  lemma FreshSearchWithActions<A, B>(game: Game<A, B>, state: GameState<A, B>, uct: UctParams, outcomes: seq<char>)
    requires |outcomes| > 0 && game.actions(state) != []
    ensures var r := MonteCarloPlayer(NewMcts(game, state, uct), outcomes);
      && r.Some?
      && exists k :: 0 <= k < |game.actions(state)| && r.value == game.result(state, game.actions(state)[k]).move
  {
    var t0 := NewMcts(game, state, uct).tree;
    var acts := game.actions(state);
    var t1 := Iterate(t0, game, uct, outcomes[0]);
    FreshFirstIteration(game, state, uct, outcomes[0]);
    var r := Run(t1, game, uct, outcomes[1..]);
    assert Run(t0, game, uct, outcomes) == r;
    forall k | 0 <= k < |acts|
      ensures r[1 + k].state == game.result(state, acts[k])
    {
      assert r[1 + k].state == t1[1 + k].state;
    }
    DecisionAmongSuccessors(r, game, state, acts);
  }

  /** A fresh engine whose state has no legal action never decides on a move. */
  lemma FreshSearchWithoutActions<A, B>(game: Game<A, B>, state: GameState<A, B>, uct: UctParams, outcomes: seq<char>)
    requires game.actions(state) == []
    ensures MonteCarloPlayer(NewMcts(game, state, uct), outcomes).None?
  {
    var t0 := NewMcts(game, state, uct).tree;
    if outcomes != [] {
      var t1 := Iterate(t0, game, uct, outcomes[0]);
      FreshFirstIteration(game, state, uct, outcomes[0]);
      assert Run(t0, game, uct, outcomes) == Run(t1, game, uct, outcomes[1..]);
      ChildlessRootStaysChildless(t1, game, uct, outcomes[1..]);
    }
  }

  /** A fresh engine returns a move exactly when it ran at least one iteration and the
      current state has a legal action, and the move is that of one of the state's
      successors. */
  lemma FreshSearchDecides<A, B>(game: Game<A, B>, state: GameState<A, B>, uct: UctParams, outcomes: seq<char>)
    ensures var r := MonteCarloPlayer(NewMcts(game, state, uct), outcomes);
      && (r.Some? <==> |outcomes| > 0 && game.actions(state) != [])
      && (r.Some? ==> exists k :: 0 <= k < |game.actions(state)| && r.value == game.result(state, game.actions(state)[k]).move)
  {
    if game.actions(state) == [] {
      FreshSearchWithoutActions(game, state, uct, outcomes);
    } else if outcomes != [] {
      FreshSearchWithActions(game, state, uct, outcomes);
    }
  }
}

=== FILE: selection.dfy ===
/**
 Choosing among children: the most visited child (for the final decision), the child with
 the best UCT value (for descending the tree), and the descent itself.
 */
module MctsSelection {
  import opened MctsGame
  import opened MctsTree

  /** `sys.maxsize` on a 64-bit platform, the score of a never-visited child. */
  const MaxSize: int := 0x7FFF_FFFF_FFFF_FFFF

  /** The UCT value of a visited child, as a function of the parent's visit count and the
      child's score and visit count. Its floating-point formula is not modelled. */
  type Scorer = (nat, int, nat) -> real

  /** The engine's fixed exploration constant and the scorer of visited children. */
  datatype UctParams = UctParams(exploreFactor: real, visitedScore: Scorer)

  /** Position `k` holds the first largest key: no key is larger, every earlier key is smaller. */
  predicate IsFirstMax(keys: seq<real>, k: nat)
  {
    && k < |keys|
    && (forall j :: 0 <= j < |keys| ==> keys[j] <= keys[k])
    && (forall j :: 0 <= j < k ==> keys[j] < keys[k])
  }

  /** Python's `max` over a non-empty list: scans left to right and moves to a later
      element only when its key is strictly larger. */
  function ArgMaxFirst(keys: seq<real>): (k: nat)
    requires |keys| > 0
    ensures IsFirstMax(keys, k)
  {
    if |keys| == 1 then 0
    else
      var k := ArgMaxFirst(keys[..|keys| - 1]);
      if keys[|keys| - 1] > keys[k] then |keys| - 1 else k
  }

  /** At most one position holds the first largest key. */
  lemma FirstMaxUnique(keys: seq<real>, k: nat, k': nat)
    requires IsFirstMax(keys, k) && IsFirstMax(keys, k')
    ensures k == k'
  {
    assert keys[k] <= keys[k'] <= keys[k];
  }

  /** The visit counts of the children of node `i`, in list order. */
  function VisitKeys<A, B>(t: Tree<A, B>, i: nat): (keys: seq<real>)
    requires ValidTree(t) && i < |t|
    ensures |keys| == |t[i].children|
    ensures forall k :: 0 <= k < |keys| ==> keys[k] == t[t[i].children[k]].visitCount as real
  {
    seq(|t[i].children|, k requires 0 <= k < |t[i].children| => t[t[i].children[k]].visitCount as real)
  }

  /** The child of `i` with the most visits, the first one in list order on a tie. The
      children list must be non-empty: `max` of an empty list raises. */
  function GetChildWithMaxScore<A, B>(t: Tree<A, B>, i: nat): (c: nat)
    requires ValidTree(t) && i < |t| && |t[i].children| > 0
    ensures c in t[i].children && c < |t| && t[c].parent == Some(i)
    ensures forall d :: d in t[i].children ==> t[d].visitCount <= t[c].visitCount
    ensures forall k :: 0 <= k < |t[i].children| && t[t[i].children[k]].visitCount >= t[c].visitCount ==>
      c in t[i].children[..k + 1]
  {
    var k := ArgMaxFirst(VisitKeys(t, i));
    t[i].children[k]
  }

  /** The UCT value of a child: an unvisited child scores `sys.maxsize`, or 0 when the
      exploration constant is 0; a visited one is scored by the abstract formula. */
  function UctValue(u: UctParams, parentVisitCount: nat, winScore: int, visitCount: nat): (v: real)
  {
    if visitCount == 0 then
      if u.exploreFactor == 0.0 then 0.0 else MaxSize as real
    else
      u.visitedScore(parentVisitCount, winScore, visitCount)
  }

  /** The UCT value of child `c` of node `i`. */
  function Uct<A, B>(t: Tree<A, B>, i: nat, c: nat, u: UctParams): (v: real)
    requires i < |t| && c < |t|
  {
    UctValue(u, t[i].visitCount, t[c].winScore, t[c].visitCount)
  }

  /** The UCT values of the children of node `i`, in list order. */
  function UctKeys<A, B>(t: Tree<A, B>, i: nat, u: UctParams): (keys: seq<real>)
    requires ValidTree(t) && i < |t|
    ensures |keys| == |t[i].children|
    ensures forall k :: 0 <= k < |keys| ==> keys[k] == Uct(t, i, t[i].children[k], u)
  {
    seq(|t[i].children|, k requires 0 <= k < |t[i].children| => Uct(t, i, t[i].children[k], u))
  }

  /** The child of `i` with the largest UCT value, the first one in list order on a tie. */
  function FindBestNodeWithUCT<A, B>(t: Tree<A, B>, i: nat, u: UctParams): (c: nat)
    requires ValidTree(t) && i < |t| && |t[i].children| > 0
    ensures c in t[i].children && i < c < |t| && t[c].parent == Some(i)
    ensures forall d :: d in t[i].children ==> Uct(t, i, d, u) <= Uct(t, i, c, u)
    ensures forall k :: 0 <= k < |t[i].children| && Uct(t, i, t[i].children[k], u) >= Uct(t, i, c, u) ==>
      c in t[i].children[..k + 1]
  {
    var k := ArgMaxFirst(UctKeys(t, i, u));
    t[i].children[k]
  }

  /** With a non-zero exploration constant, and visited children scoring below
      `sys.maxsize`, the first unvisited child is chosen whenever there is one. */
  lemma UnvisitedChildChosenFirst<A, B>(t: Tree<A, B>, i: nat, u: UctParams)
    requires ValidTree(t) && i < |t| && |t[i].children| > 0
    requires u.exploreFactor != 0.0
    requires exists d :: d in t[i].children && t[d].visitCount == 0
    requires forall d :: d in t[i].children && t[d].visitCount > 0 ==> Uct(t, i, d, u) < MaxSize as real
    ensures var c := FindBestNodeWithUCT(t, i, u);
      && t[c].visitCount == 0
      && forall k :: 0 <= k < |t[i].children| && t[t[i].children[k]].visitCount == 0 ==>
           c in t[i].children[..k + 1]
  {
  }

  /** With exploration constant 0 an unvisited child scores 0, so it loses to any visited
      child with a positive score. */
  lemma ZeroExploreSkipsUnvisited<A, B>(t: Tree<A, B>, i: nat, u: UctParams)
    requires ValidTree(t) && i < |t| && |t[i].children| > 0
    requires u.exploreFactor == 0.0
    requires exists d :: d in t[i].children && t[d].visitCount > 0 && Uct(t, i, d, u) > 0.0
    ensures t[FindBestNodeWithUCT(t, i, u)].visitCount > 0
  {
  }

  /** The selection stage: descends by best UCT child until reaching a node without
      children, which lies below (or is) the start node. */
  function SelectNode<A, B>(t: Tree<A, B>, i: nat, u: UctParams): (leaf: nat)
    requires ValidTree(t) && i < |t|
    ensures leaf < |t| && t[leaf].children == []
    ensures IsAncestorOrSelf(t, i, leaf)
    ensures forall j :: i < j && IsAncestorOrSelf(t, j, leaf) ==>
      0 < j < |t| && |t[t[j].parent.value].children| > 0 && j == FindBestNodeWithUCT(t, t[j].parent.value, u)
    decreases |t| - i
  {
    if t[i].children == [] then
      assert forall j: nat :: IsAncestorOrSelf(t, j, i) ==> j <= i by {
        forall j: nat ensures IsAncestorOrSelf(t, j, i) ==> j <= i {
          AncestorIsBelow(t, j, i);
        }
      }
      i
    else
      var c := FindBestNodeWithUCT(t, i, u);
      var leaf := SelectNode(t, c, u);
      AncestorClimbs(t, c, leaf);
      forall j | i < j && IsAncestorOrSelf(t, j, leaf)
        ensures 0 < j < |t| && |t[t[j].parent.value].children| > 0 && j == FindBestNodeWithUCT(t, t[j].parent.value, u)
      {
        WalkIsChain(t, j, c, leaf);
        AncestorIsBelow(t, j, i);
      }
      leaf
  }
}

=== FILE: tree.dfy ===
/**
 The search tree as an immutable arena: a sequence of node records that refer to each other
 by index. The root sits at index 0, every other node names its parent, and a parent always
 comes before its children, so the parent links form an arborescence with no cycles.
 */
module MctsTree {
  import opened MctsGame

  datatype Option<T> = None | Some(value: T)

  /** One tree node: its game state, the index of its parent (`None` for the root), the
      indices of its children in insertion order, and its statistics. */
  datatype Node<A, B> = Node(
    state: GameState<A, B>,
    parent: Option<nat>,
    children: seq<nat>,
    visitCount: nat,
    winScore: int)

  type Tree<A, B> = seq<Node<A, B>>

  /** A freshly built node: no children and zero statistics. */
  function NewNode<A, B>(state: GameState<A, B>, parent: Option<nat>): (n: Node<A, B>)
  {
    Node(state, parent, [], 0, 0)
  }

  /** The consecutive indices `start, start + 1, ..., start + n - 1`. */
  function Indices(start: nat, n: nat): (s: seq<nat>)
    ensures |s| == n
    ensures forall k :: 0 <= k < n ==> s[k] == start + k
    decreases n
  {
    if n == 0 then [] else [start] + Indices(start + 1, n - 1)
  }

  /** Node `i` appears in its parent's child list. Kept as a predicate of its own so that
      it is unfolded only where a proof asks for it. */
  predicate ListedByParent<A, B>(t: Tree<A, B>, i: nat)
    requires i < |t|
  {
    t[i].parent.Some? && t[i].parent.value < |t| && i in t[t[i].parent.value].children
  }

  /** Parent and child links agree, parents precede children, only the root (index 0)
      has no parent, and no child is listed twice. */
  predicate ValidTree<A, B>(t: Tree<A, B>)
  {
    && |t| > 0
    && t[0].parent == None
    && (forall i :: 0 < i < |t| ==> t[i].parent.Some? && t[i].parent.value < i)
    && (forall i, k :: 0 <= i < |t| && 0 <= k < |t[i].children| ==>
          i < t[i].children[k] < |t| && t[t[i].children[k]].parent == Some(i))
    && (forall i, k, l :: 0 <= i < |t| && 0 <= k < l < |t[i].children| ==>
          t[i].children[k] != t[i].children[l])
    && (forall i :: 0 < i < |t| ==> ListedByParent(t, i))
  }

  /** `a` is `d` itself or lies on the walk from `d` along parent links. */
  predicate IsAncestorOrSelf<A, B>(t: Tree<A, B>, a: nat, d: nat)
    decreases d
  {
    d == a
    || (d < |t| && t[d].parent.Some? && t[d].parent.value < d
        && IsAncestorOrSelf(t, a, t[d].parent.value))
  }

  /** Node `i` has no more visits than its parent. */
  predicate VisitsBelowParent<A, B>(t: Tree<A, B>, i: nat)
    requires i < |t|
  {
    t[i].parent.Some? && t[i].parent.value < |t| ==> t[i].visitCount <= t[t[i].parent.value].visitCount
  }

  /** A parent has at least as many visits as each of its children: every pass that
      reaches a child continues to its parent. */
  predicate ParentVisitsDominate<A, B>(t: Tree<A, B>)
  {
    forall i :: 0 <= i < |t| ==> VisitsBelowParent(t, i)
  }

  /** Two arenas with the same links, node by node. */
  predicate SameShape<A, B>(t: Tree<A, B>, t': Tree<A, B>)
  {
    |t| == |t'| && forall j :: 0 <= j < |t| ==> t[j].parent == t'[j].parent && t[j].children == t'[j].children
  }

  /** Validity depends only on the links, not on states or statistics. */
  lemma SameShapeValid<A, B>(t: Tree<A, B>, t': Tree<A, B>)
    requires ValidTree(t) && SameShape(t, t')
    ensures ValidTree(t')
  {
    forall i | 0 < i < |t'|
      ensures ListedByParent(t', i)
    {
      assert ListedByParent(t, i);
    }
  }

  /** Every node of a valid tree is reached from the root. */
  lemma {:induction false} RootIsAncestorOfAll<A, B>(t: Tree<A, B>, d: nat)
    requires ValidTree(t) && d < |t|
    ensures IsAncestorOrSelf(t, 0, d)
    decreases d
  {
    if d != 0 {
      RootIsAncestorOfAll(t, t[d].parent.value);
    }
  }

  /** An ancestor never has a larger index than its descendant. */
  lemma {:induction false} AncestorIsBelow<A, B>(t: Tree<A, B>, a: nat, d: nat)
    ensures IsAncestorOrSelf(t, a, d) ==> a <= d
    decreases d
  {
    if d != a && d < |t| && t[d].parent.Some? && t[d].parent.value < d {
      AncestorIsBelow(t, a, t[d].parent.value);
    }
  }

  /** The walk up from `d` is a chain: of two nodes on it, the lower-indexed one lies on
      the walk up from the other. */
  lemma {:induction false} WalkIsChain<A, B>(t: Tree<A, B>, a: nat, b: nat, d: nat)
    ensures a <= b && IsAncestorOrSelf(t, a, d) && IsAncestorOrSelf(t, b, d) ==> IsAncestorOrSelf(t, a, b)
    decreases d
  {
    if a <= b && IsAncestorOrSelf(t, a, d) && IsAncestorOrSelf(t, b, d) && d != b {
      AncestorIsBelow(t, b, d);
      WalkIsChain(t, a, b, t[d].parent.value);
    }
  }

  /** If `a` lies on the walk up from `d`, so does the parent of `a`. */
  lemma {:induction false} AncestorClimbs<A, B>(t: Tree<A, B>, a: nat, d: nat)
    requires ValidTree(t) && 0 < a < |t| && d < |t|
    requires IsAncestorOrSelf(t, a, d)
    ensures IsAncestorOrSelf(t, t[a].parent.value, d)
    decreases d
  {
    if d != a {
      AncestorClimbs(t, a, t[d].parent.value);
    }
  }

  /** The walk up from `d` depends only on the parent links at indices up to `d`. */
  lemma {:induction false} AncestorSameParents<A, B>(t: Tree<A, B>, t': Tree<A, B>, a: nat, d: nat)
    requires d < |t| && d < |t'|
    requires forall j :: 0 <= j <= d ==> t[j].parent == t'[j].parent
    ensures IsAncestorOrSelf(t, a, d) <==> IsAncestorOrSelf(t', a, d)
    decreases d
  {
    if d != a && t[d].parent.Some? && t[d].parent.value < d {
      AncestorSameParents(t, t', a, t[d].parent.value);
    }
  }
}
